=== FILE: README.md ===
# Milling-tool and grid-world environments in Dafny

This project models two small sequential decision environments as pure state
machines, and proves properties of them.

- **Milling-tool degradation environment** (`MillingToolEnv`,
  `MillingToolEpisodes`). An episode walks over a table of recorded sensor rows.
  Each row holds three force channels, three vibration channels, the expert's
  recommended action code and the remaining useful life (RUL). At each step the
  agent either continues (action 0) or replaces the tool (action 1). The
  environment keeps the current time step, the record count, the per-step
  maintenance cost, the replacement count, the time step of the last
  replacement and the RUL threshold. A step reads the auxiliary values (action
  code, RUL) at the pre-step index, zeroes the cost, and then applies the first
  matching branch of: end of data, RUL threshold crossed, continue, replace. It
  pays the reward `(t + 1) / (cost + 0.01) / 1000` on the post-branch time step
  and cost, and returns the observation read at the post-branch index. A reset
  moves the time step to a drawn index in `[0, records / 10)` and leaves the
  cost and replacement counters alone.
- **Grid-world environment** (`GridWorldEnv`). An agent and a target sit on a
  square integer grid. The four actions move the agent right, up, left or down,
  clamped to the grid. The episode ends exactly when the agent reaches the
  target, the reward is 1 then and 0 otherwise, and the info value is the
  Manhattan distance. A reset places the agent and then draws target cells until
  one differs from the agent.

`Results` holds the `Option` and `Result` datatypes both environments use.

Randomness is an input. The milling reset takes the drawn start index as a
parameter. The grid reset takes the drawn agent cell and a finite sequence of
candidate target cells. Costs and rewards are Dafny `real`s and grid
coordinates are unbounded integers.

The model follows the code's behaviour where it departs from the code's evident
intent:

- The action space declares two actions (PHM_MT_environment.py:74), but an
  action other than 0 or 1 is not rejected. It matches no branch, leaves the
  time step unchanged and charges cost 0 (`StepTag.NoBranch`, the code's `'-'`
  info tag).
- The code's comments assume a reset comes before the first step
  (PHM_MT_environment.py:118), but nothing enforces it. A step uses whatever
  time step the state holds.
- With a table attached, the end-of-data branch (PHM_MT_environment.py:153-155)
  can never fire. The auxiliary read at the pre-step index
  (PHM_MT_environment.py:149) comes before the `>= records` test and fails on an
  index past the table. When the last row's RUL is above the threshold,
  continuing or replacing from it fails on the observation read at
  PHM_MT_environment.py:189.
  `EndOfDataOnlyWithoutTable`, `RunNeverEndsOfDataWithTable` and the contract
  of `TryStep` prove this. The end-of-data tag is therefore reachable
  only without a table.
- The reset stores its draw as a one-element array (PHM_MT_environment.py:130).
  Continue and replace advance it in place with `+=` (PHM_MT_environment.py:160,
  165). A replace then binds the time since the last replacement to that same
  array (PHM_MT_environment.py:169). From then on every continue also advances
  the time since the last replacement, until the next reset binds a fresh
  array; the old array, and so that field, keeps its last value. Before the
  first reset the time step is a plain integer and nothing is shared. `Env`
  records both facts (`stepIsArray`, `lastReplacementShared`).
  `ReplaceThenContinue` and `ResetReplaceContinue` prove the consequence.

Table reads demand an index inside the table (`Readable`). `Step` requires that
both of its reads are in range (`StepReadsInRange`). `TryStep` is the total
version that returns `IndexOutOfRange` exactly when they are not. An abort
carries the state the environment is left in. The auxiliary read aborts
before anything is written. The observation read aborts after the continue
or replace branch has already advanced the time step, set the cost and, for a
replace, counted the replacement; a later reset keeps those counters. The milling
reset returns `EmptyStartRange` when `records / 10` is 0, because the draw range
is then empty and the draw raises. For fewer than 10^15 records,
`records / 10` equals the code's `int(0.10 * records)`. The double nearest 0.1
lies slightly above one tenth, so the product is never rounded below the
integer `records / 10`. Below 10^15 records the excess plus the rounding error
stays under 0.02, so it never reaches the next integer either. For much larger
counts the two can differ (see Left out). The grid reset returns `EmptyRange` for `size < 1`.
It returns `DrawsExhausted` when every supplied target draw equals the agent's
cell, which stands for the code's loop never ending. On a grid of side 1 that
always happens.

## Model

| member | source | states |
|---|---|---|
| MillingToolEnv.Init | PHM_MT_environment.py:31-41 | a new environment has no table, time step 0, cost 0, no replacements, and the given record count and RUL threshold (by default 0 and 0.0); its time step is a plain integer and the last-replacement time shares nothing |
| MillingToolEnv.AttachData | PHM_MT_environment.py:77-79 | attaching a table makes the record count its row count and changes no bookkeeping field |
| MillingToolEnv.TruncateToInt | PHM_MT_environment.py:107 | the action code is converted to an integer by truncation toward zero: same sign, and less than 1 away from the real value |
| MillingToolEnv.ReadObservation | PHM_MT_environment.py:86-101 | the observation has 6 values: six zeros without a table; otherwise force x, y, z, vibration x and vibration y of row t, with the 6th value equal to the 5th |
| MillingToolEnv.ReadAuxiliary | PHM_MT_environment.py:104-114 | without a table the auxiliary values are (0, 0.0); otherwise they are row t's truncated action code and its RUL |
| MillingToolEnv.StartRange | PHM_MT_environment.py:130 | the draw range size is the integer part of a tenth of the records; it is positive exactly when there are at least 10 records |
| MillingToolEnv.Reset | PHM_MT_environment.py:124-134 | an empty draw range is an error exactly when records < 10; otherwise the time step becomes the draw in [0, records/10), the observation is read there, and table, records, cost, replacement count and last-replacement time are unchanged; the time step is now a fresh array that the last-replacement time does not share |
| MillingToolEnv.Reward | PHM_MT_environment.py:173-174 | the reward is strictly positive for any non-negative cost |
| MillingToolEnv.Step | PHM_MT_environment.py:143-194 | the four branches in order: end of data and RUL threshold terminate with the state unchanged except cost 0; continue advances the time step by 1 at cost 0.1 and leaves the last-replacement time alone unless it shares the time step's array, in which case it follows to the new time step; replace advances by 1 at cost 10.0, adds 1 replacement, sets the last-replacement time to the new time step and makes it share the time step's array exactly when that is a reset's array; any other action changes nothing but the cost. Terminated holds exactly on the first two branches, truncated is always false, the reward is (t'+1)/(cost'+0.01)/1000 on the post-branch state and positive, the observation is read at the post-branch index, the replacement count and time step never decrease, and a shared last-replacement time stays equal to the time step |
| MillingToolEnv.TryStep | PHM_MT_environment.py:143-194 | without a table a step never aborts; with a consistent table it aborts exactly when the time step is past the table, or is the last row with RUL above the threshold under continue or replace. An abort at the auxiliary read leaves the state unchanged; an abort at the observation read leaves the committed branch: time step equal to the row count, cost 0.1 or 10.0, the time step still the same object with its sharing unchanged by a continue, a shared last-replacement time moved along with a continue, and for a replace one more replacement with the last-replacement time at the new time step. Otherwise the step is Step |
| MillingToolEpisodes.Run | PHM_MT_environment.py:143-194 | over any sequence of steps every reward is positive, the replacement count and time step never decrease, and the table, record count, threshold and table consistency are preserved; an aborted run reports a state whose counters have not decreased either |
| MillingToolEpisodes.ContinueOutrewardsReplace | PHM_MT_environment.py:159-174 | from the same state, when neither termination branch fires, a continue step earns exactly 91 times the reward of a replace step |
| MillingToolEpisodes.RewardMonotone | PHM_MT_environment.py:173-174 | the reward strictly increases with the time step and strictly decreases with the cost |
| MillingToolEpisodes.EndOfDataOnlyWithoutTable | PHM_MT_environment.py:149-155 | a step that reports end of data was taken without a table |
| MillingToolEpisodes.RunNeverEndsOfDataWithTable | PHM_MT_environment.py:149-155 | no step of any run over an attached table reports end of data |
| MillingToolEpisodes.RunBookkeeping | PHM_MT_environment.py:151-169 | over a run the replacement count grows by the number of replace steps and the time step by the number of continue and replace steps |
| MillingToolEpisodes.ReplaceRunBookkeeping | PHM_MT_environment.py:164-169 | N replace steps, none terminating, raise the replacement count and the time step by exactly N and leave the last-replacement time equal to the final time step |
| MillingToolEpisodes.RunStallsOnlyOnStoppedSteps | PHM_MT_environment.py:145-170 | over a successful run the time step advances by the number of actions minus the steps that matched no branch, reported end of data or crossed the RUL threshold |
| MillingToolEpisodes.ReplaceThenContinue | PHM_MT_environment.py:130-169 | after a replace and a continue the time step is two further on; the last-replacement time is two further on when the time step was a reset's array, and one further on before any reset |
| MillingToolEpisodes.ResetReplaceContinue | PHM_MT_environment.py:124-169 | reset with draw d, then replace, then continue leaves both the time step and the last-replacement time at d + 2 |
| MillingToolEpisodes.ObservationIgnoresVibrationZ | PHM_MT_environment.py:88-95 | the observation does not depend on the vibration z channel: tables that differ only there give the same observation |
| GridWorldEnv.Direction | Code_Store/environment_creation.py:32-37 | each action is a unit vector: actions 0 and 2 horizontal, 1 and 3 vertical, 0 and 1 positive, 2 and 3 negative (right, up, left, down) |
| GridWorldEnv.Clip | Code_Store/environment_creation.py:132-134 | clipping keeps values inside [lo, hi] and returns them unchanged there, sends values below lo to lo and values above hi to hi |
| GridWorldEnv.Distance | Code_Store/environment_creation.py:70-75 | the distance is 0 exactly when the two cells coincide |
| GridWorldEnv.Step | Code_Store/environment_creation.py:128-144 | size and target are unchanged; on a grid of side at least 1 the agent stays on the grid; an unblocked move lands on agent + direction; the agent moves at most one cell; terminated holds exactly when the agent is on the target; the reward is 1 if terminated else 0; truncated is false; the distance is 0 exactly when terminated |
| GridWorldEnv.BlockedIffAtBorder | Code_Store/environment_creation.py:130-134 | from a cell on the grid, the agent stays put exactly when the cell it heads for is off the grid |
| GridWorldEnv.OppositeStepReturns | Code_Store/environment_creation.py:130-134 | an unblocked step followed by the opposite action returns to the original state |
| GridWorldEnv.FirstDistinct | Code_Store/environment_creation.py:99-103 | the loop finds a target exactly when some draw differs from the agent; the index found is the first such draw, and every earlier draw equals the agent |
| GridWorldEnv.Reset | Code_Store/environment_creation.py:91-111 | size < 1 is an error; otherwise reset succeeds exactly when some draw differs from the agent. The target is the first such draw, and every earlier draw equals the agent. Both cells are on the grid and distinct, so the distance is positive and the episode is not terminated. On a grid of side 1 reset never succeeds |
| GridWorldEnv.OneDrawSuffices | Code_Store/environment_creation.py:96-103 | on a grid of side at least 2 there is a single on-grid target draw with which the reset succeeds, so the draw loop can end |
| GridWorldEnv.ResetThenStep | Code_Store/environment_creation.py:91-144 | the first step after a successful reset changes the reported distance by at most one |

## Left out

- The process-wide telemetry lists and their appends. They are side effects used only for external analysis, and nothing in the state machine reads them.
- Console printing, the `render_mode` report after a milling step, and the grid world's pygame rendering. All of this is presentation.
- The observation- and action-space declarations. They are library metadata whose bounds the environments never enforce.
- Seeding and the random distributions. The drawn values are inputs with range preconditions, not probabilistic behaviour.
- The milling reset's draw is a one-element array. The model keeps its value as the time step and records its sharing with the last-replacement time. It does not model the rest: the telemetry list entry at PHM_MT_environment.py:177 keeps a reference to the same array; `df.loc` with that array as index yields a one-row Series, which `int()` and `float()` convert at PHM_MT_environment.py:107-108; and the resulting 6×1 observation array is flattened at PHM_MT_environment.py:100.
- Float32 and float64 rounding of observations, costs and rewards. The model computes with exact reals.
- Table indexing beyond "row i of a sequence". A read outside the table is an error (`IndexOutOfRange`), not a lookup by label.
- The `tool_wear` column and the remaining dataset columns. The environment never reads them.
- MillingToolEnv.StartRange: uses the exact `records / 10`. The code's float `int(0.10 * records)` is one larger for some record counts of about 10^16 and above, for example 11258999068426259. Tables that large are not modelled.
- The milling step's `self.rul` and `self.reward` attributes. They are returned in the step result (`aux.rul`, `reward`) instead of being kept in the state, because no later call reads them. When a step aborts on its observation read, `self.rul` and `self.reward` have already been written. The abort result does not carry them.
- The milling reset's info map `{'reset': 'Reset'}` (PHM_MT_environment.py:132). It is a constant.
- The grid constructor. It only stores `size` (default 5) and rendering fields, so a `Grid` value is built directly.
- GridWorldEnv.Reset: the code's endless target-draw loop is modelled by a finite draw sequence. When every draw equals the agent's cell, the model reports `DrawsExhausted` instead of looping forever.
- Seeded replay. The model is deterministic given its draws, which are inputs. In the code, the grid reset draws from the environment's own generator, which `super().reset(seed=seed)` seeds (Code_Store/environment_creation.py:93-103), so a seed fixes its draws. The milling reset draws its start index from numpy's global generator (PHM_MT_environment.py:130), which that seed call (PHM_MT_environment.py:127) does not touch, so two milling environments reset with the same seed can start at different time steps.

=== FILE: grid_world_env.dfy ===
/**
 * The grid-world environment: an agent walks on a square integer grid of side
 * `size` towards a target; moves are clamped at the border, the episode ends
 * when the agent stands on the target, and the reward is 1 then and 0 before.
 *
 * The random draws of a reset are inputs: one agent location and a sequence of
 * candidate target locations, consumed until one differs from the agent.
 */
module GridWorldEnv {
  import opened Results

  /** A grid cell (or a direction vector) as a pair of integers. */
  datatype Loc = Loc(x: int, y: int)

  /** The environment's state. */
  datatype Grid = Grid(size: int, agent: Loc, target: Loc)

  /** What the agent sees: both locations. */
  datatype Observation = Observation(agent: Loc, target: Loc)

  datatype StepResult = StepResult(
    grid: Grid, observation: Observation, reward: int,
    terminated: bool, truncated: bool, distance: nat)

  datatype ResetResult = ResetResult(
    grid: Grid, observation: Observation, distance: nat, drawsUsed: nat)

  /** Errors of a reset. */
  datatype ResetError =
    | EmptyRange      // size < 1: no integer lies in [0, size)
    | DrawsExhausted  // every supplied target draw equals the agent's location

  /** `l` lies on the grid, both coordinates in [0, size-1]. */
  predicate InBounds(size: int, l: Loc) {
    0 <= l.x < size && 0 <= l.y < size
  }

  function Abs(n: int): nat {
    if n < 0 then -n else n
  }

  function Add(a: Loc, b: Loc): Loc {
    Loc(a.x + b.x, a.y + b.y)
  }

  /**
   * The unit direction of each of the four actions: right, up, left, down.
   * Even actions are horizontal, odd ones vertical; the first two point in the
   * positive direction and the last two in the negative one.
   */
  function Direction(action: int): (d: Loc)
    requires 0 <= action < 4
    ensures Abs(d.x) + Abs(d.y) == 1
    ensures action % 2 == 0 <==> d.y == 0
    ensures action < 2 <==> d.x + d.y == 1
  {
    if action == 0 then Loc(1, 0)
    else if action == 1 then Loc(0, 1)
    else if action == 2 then Loc(-1, 0)
    else Loc(0, -1)
  }

  /**
   * Clipping of `v` to [lo, hi], taking the lower bound first and the upper
   * bound second; when lo > hi the result is hi.
   */
  function Clip(v: int, lo: int, hi: int): (r: int)
    ensures lo <= hi ==> lo <= r <= hi
    ensures lo <= v <= hi ==> r == v
    ensures lo <= hi && v < lo ==> r == lo
    ensures hi < v || hi < lo ==> r == hi
  {
    var m := if v < lo then lo else v;
    if m > hi then hi else m
  }

  /** The Manhattan (L1) distance between two cells, reported as the step's info. */
  function Distance(a: Loc, b: Loc): (d: nat)
    ensures d == 0 <==> a == b
  {
    Abs(a.x - b.x) + Abs(a.y - b.y)
  }

  /** One step: move the agent one cell in the action's direction, clamped to the grid. */
  function Step(g: Grid, action: int): (r: StepResult)
    requires 0 <= action < 4
    ensures r.grid.size == g.size && r.grid.target == g.target
    ensures g.size >= 1 ==> InBounds(g.size, r.grid.agent)
    ensures InBounds(g.size, Add(g.agent, Direction(action))) ==>
      r.grid.agent == Add(g.agent, Direction(action))
    ensures InBounds(g.size, g.agent) ==> Distance(g.agent, r.grid.agent) <= 1
    ensures r.terminated <==> r.grid.agent == g.target
    ensures r.reward == (if r.terminated then 1 else 0)
    ensures !r.truncated
    ensures r.observation == Observation(r.grid.agent, g.target)
    ensures r.distance == Distance(r.grid.agent, g.target)
    ensures r.distance == 0 <==> r.terminated
  {
    var moved := Add(g.agent, Direction(action));
    var agent := Loc(Clip(moved.x, 0, g.size - 1), Clip(moved.y, 0, g.size - 1));
    var terminated := agent == g.target;
    StepResult(g.(agent := agent), Observation(agent, g.target),
               if terminated then 1 else 0, terminated, false, Distance(agent, g.target))
  }

  /**
   * From a cell on the grid, a step leaves the agent where it was exactly when
   * the cell it heads for is off the grid.
   */
  lemma BlockedIffAtBorder(g: Grid, action: int)
    requires 0 <= action < 4 && InBounds(g.size, g.agent)
    ensures Step(g, action).grid.agent == g.agent
            <==> !InBounds(g.size, Add(g.agent, Direction(action)))
  {
  }

  /**
   * A step that is not blocked is undone by the opposite action: right and
   * left, up and down cancel.
   */
  lemma OppositeStepReturns(g: Grid, action: int)
    requires 0 <= action < 4 && InBounds(g.size, g.agent)
    requires InBounds(g.size, Add(g.agent, Direction(action)))
    ensures Step(Step(g, action).grid, (action + 2) % 4).grid == g
  {
  }

  /**
   * Index of the first draw that differs from the agent's cell, if any: the
   * draws the reset loop consumes are those up to and including it.
   */
  function FirstDistinct(agent: Loc, draws: seq<Loc>): (k: Option<nat>)
    ensures k.Some? <==> exists i | 0 <= i < |draws| :: draws[i] != agent
    ensures k.Some? ==>
      && k.value < |draws|
      && draws[k.value] != agent
      && forall j | 0 <= j < k.value :: draws[j] == agent
    decreases |draws|
  {
    if |draws| == 0 then None
    else if draws[0] != agent then Some(0)
    else
      match FirstDistinct(agent, draws[1..])
      case None =>
        assert forall i | 1 <= i < |draws| :: draws[i] == draws[1..][i - 1];
        None
      case Some(k) =>
        assert draws[1..][k] == draws[k + 1];
        Some(k + 1)
  }

  /**
   * Starts an episode: the agent goes to `agentDraw`, and the target draws are
   * consumed in order while the drawn target equals the agent's location.
   * Running out of draws stands for the program looping forever; on a grid of
   * side 1 that always happens.
   */
  function Reset(size: int, agentDraw: Loc, targetDraws: seq<Loc>): (r: Result<ResetResult, ResetError>)
    requires size >= 1 ==> InBounds(size, agentDraw)
    requires size >= 1 ==> forall i | 0 <= i < |targetDraws| :: InBounds(size, targetDraws[i])
    ensures size < 1 <==> r == Failure(EmptyRange)
    ensures size >= 1 ==>
      (r.Success? <==> exists i | 0 <= i < |targetDraws| :: targetDraws[i] != agentDraw)
    ensures r == Failure(DrawsExhausted) ==>
      forall i | 0 <= i < |targetDraws| :: targetDraws[i] == agentDraw
    ensures size == 1 ==> r.Failure?
    ensures r.Success? ==>
      var res := r.value;
      && res.grid.size == size
      && res.grid.agent == agentDraw
      && 1 <= res.drawsUsed <= |targetDraws|
      && res.grid.target == targetDraws[res.drawsUsed - 1]
      && (forall j | 0 <= j < res.drawsUsed - 1 :: targetDraws[j] == agentDraw)
      && InBounds(size, res.grid.agent) && InBounds(size, res.grid.target)
      && res.grid.agent != res.grid.target
      && res.observation == Observation(res.grid.agent, res.grid.target)
      && res.distance == Distance(res.grid.agent, res.grid.target)
      && res.distance > 0
  {
    if size < 1 then
      Failure(EmptyRange)
    else
      match FirstDistinct(agentDraw, targetDraws)
      case None => Failure(DrawsExhausted)
      case Some(k) =>
        var target := targetDraws[k];
        // on a grid of side 1 the only cell is the origin
        assert InBounds(size, target);
        assert size == 1 ==> target.x == 0 == agentDraw.x && target.y == 0 == agentDraw.y;
        Success(ResetResult(Grid(size, agentDraw, target), Observation(agentDraw, target),
                            Distance(agentDraw, target), k + 1))
  }

  /**
   * On a grid of side at least 2 the target draw loop can end: some single
   * draw on the grid makes the reset succeed.
   */
  lemma OneDrawSuffices(size: int, agent: Loc) returns (l: Loc)
    requires size >= 2 && InBounds(size, agent)
    ensures InBounds(size, l)
    ensures Reset(size, agent, [l]).Success?
  {
    l := if agent.x == 0 then Loc(1, agent.y) else Loc(0, agent.y);
    assert [l][0] != agent;
  }

  /**
   * The first step after a reset changes the reported distance by at most
   * one.
   */
  lemma ResetThenStep(size: int, agentDraw: Loc, targetDraws: seq<Loc>, action: int)
    requires size >= 1 && InBounds(size, agentDraw)
    requires forall i | 0 <= i < |targetDraws| :: InBounds(size, targetDraws[i])
    requires Reset(size, agentDraw, targetDraws).Success?
    requires 0 <= action < 4
    ensures
      var res := Reset(size, agentDraw, targetDraws).value;
      var s := Step(res.grid, action);
      res.distance - 1 <= s.distance <= res.distance + 1
  {
  }
}

=== FILE: milling_tool_env.dfy ===
/**
 * The milling-tool degradation environment: an episode walks over a table of
 * recorded sensor rows; at each step the agent either keeps using the tool or
 * replaces it, and the environment charges a per-step maintenance cost and pays
 * a reward that grows with elapsed time and shrinks with that cost.
 *
 * Randomness is an input (the reset draw), and the data table is an optional
 * sequence of rows whose index is the time step.
 */
module MillingToolEnv {
  import opened Results

  /** Smoothing constant that keeps the reward denominator away from zero. */
  const Lambda: real := 0.01
  /** Action code for "keep using the tool". */
  const ContinueAction: int := 0
  /** Action code for "replace the tool". */
  const ReplaceAction: int := 1
  /** Maintenance cost charged by a continue step. */
  const ContinueCost: real := 0.1
  /** Maintenance cost charged by a replace step. */
  const ReplaceCost: real := 10.0

  /** One recorded row: six sensor channels, the expert's action code and the RUL. */
  datatype Row = Row(
    forceX: real, forceY: real, forceZ: real,
    vibrationX: real, vibrationY: real, vibrationZ: real,
    actionCode: real, rul: real)

  /** The auxiliary reading of a step: the recommended action and the remaining useful life. */
  datatype Aux = Aux(recommendedAction: int, rul: real)

  /**
   * The environment's state. `data` is None until a table is attached.
   *
   * A reset stores its draw as a one-element array, which later steps advance
   * in place; `stepIsArray` records that the time step is such an array. A
   * replace then makes the last-replacement time the very same array object,
   * and `lastReplacementShared` records that sharing: while it holds, every
   * advance of the time step also advances the last-replacement time. Before
   * the first reset the time step is a plain integer and nothing is shared.
   */
  datatype Env = Env(
    data: Option<seq<Row>>,
    currentTimeStep: nat,
    records: nat,
    maintenanceCost: real,
    replacementEvents: nat,
    timeSinceLastReplacement: nat,
    rulThreshold: real,
    stepIsArray: bool,
    lastReplacementShared: bool)

  /** Errors the environment raises instead of returning a result. */
  datatype EnvError =
    | EmptyStartRange   // the reset draw range [0, records/10) is empty
    | IndexOutOfRange   // a row is read at an index the table does not have

  /** The info tag a step reports; NoBranch is an action that matched no branch. */
  datatype StepTag = NoBranch | EndOfData | RulThresholdCrossed | Continued | Replaced

  datatype StepResult = StepResult(
    env: Env, observation: seq<real>, reward: real,
    terminated: bool, truncated: bool, info: StepTag, aux: Aux)

  datatype ResetResult = ResetResult(env: Env, observation: seq<real>)

  /** An aborted step: the error and the state the environment was left in. */
  datatype Abort = Abort(error: EnvError, env: Env)

  /** Once a table is attached, `records` is its row count. */
  predicate Consistent(env: Env) {
    env.data.Some? ==> env.records == |env.data.value|
  }

  /** A shared last-replacement time is the time step's own array, so the two agree. */
  predicate SharingCoherent(env: Env) {
    env.lastReplacementShared ==>
      env.stepIsArray && env.timeSinceLastReplacement == env.currentTimeStep
  }

  /** Row `t` can be read: there is no table, or the table has that row. */
  predicate Readable(data: Option<seq<Row>>, t: nat) {
    data.Some? ==> t < |data.value|
  }

  /** A freshly constructed environment: no table, zeroed bookkeeping. */
  function Init(records: nat := 0, rulThreshold: real := 0.0): (env: Env)
    ensures Consistent(env) && env.data.None?
    ensures env.records == records && env.rulThreshold == rulThreshold
    ensures env.currentTimeStep == 0 && env.maintenanceCost == 0.0
    ensures env.replacementEvents == 0 && env.timeSinceLastReplacement == 0
    ensures !env.stepIsArray && !env.lastReplacementShared
  {
    Env(None, 0, records, 0.0, 0, 0, rulThreshold, false, false)
  }

  /** Installs a table; the record count becomes its row count, nothing else changes. */
  function AttachData(env: Env, table: seq<Row>): (r: Env)
    ensures Consistent(r) && r.data == Some(table) && r.records == |table|
    ensures r.currentTimeStep == env.currentTimeStep
    ensures r.maintenanceCost == env.maintenanceCost
    ensures r.replacementEvents == env.replacementEvents
    ensures r.timeSinceLastReplacement == env.timeSinceLastReplacement
    ensures r.rulThreshold == env.rulThreshold
    ensures r.stepIsArray == env.stepIsArray && r.lastReplacementShared == env.lastReplacementShared
  {
    env.(data := Some(table), records := |table|)
  }

  /** Conversion of a real to an integer by truncation toward zero. */
  function TruncateToInt(x: real): (n: int)
    ensures 0.0 <= x ==> 0 <= n && n as real <= x < n as real + 1.0
    ensures x < 0.0 ==> n <= 0 && n as real - 1.0 < x <= n as real
  {
    if x >= 0.0 then x.Floor else -((-x).Floor)
  }

  /**
   * The observation at row `t`: the three forces, then vibration x, then
   * vibration y twice; vibration z is never read. Six zeros without a table.
   */
  function ReadObservation(data: Option<seq<Row>>, t: nat): (obs: seq<real>)
    requires Readable(data, t)
    ensures |obs| == 6
    ensures data.None? ==> forall i | 0 <= i < 6 :: obs[i] == 0.0
    ensures data.Some? ==>
      var row := data.value[t];
      obs[..5] == [row.forceX, row.forceY, row.forceZ, row.vibrationX, row.vibrationY]
    ensures obs[5] == obs[4]
  {
    match data
    case None => [0.0, 0.0, 0.0, 0.0, 0.0, 0.0]
    case Some(rows) =>
      var row := rows[t];
      [row.forceX, row.forceY, row.forceZ, row.vibrationX, row.vibrationY, row.vibrationY]
  }

  /** The auxiliary reading at row `t`; (0, 0.0) without a table. */
  function ReadAuxiliary(data: Option<seq<Row>>, t: nat): (aux: Aux)
    requires Readable(data, t)
    ensures data.None? ==> aux == Aux(0, 0.0)
    ensures data.Some? ==> aux.rul == data.value[t].rul
    ensures data.Some? ==> aux.recommendedAction == TruncateToInt(data.value[t].actionCode)
  {
    match data
    case None => Aux(0, 0.0)
    case Some(rows) => Aux(TruncateToInt(rows[t].actionCode), rows[t].rul)
  }

  /**
   * Size of the reset draw range, the integer part of a tenth of the records.
   * It is positive exactly when there are at least ten records.
   */
  function StartRange(records: nat): (n: nat)
    ensures n <= records
    ensures n * 10 <= records < n * 10 + 10
    ensures n > 0 <==> records >= 10
  {
    records / 10
  }

  /**
   * Starts an episode at the drawn time step. The draw stands for a uniform
   * choice in [0, records/10); an empty range is the draw's error. Cost and
   * replacement counters are left as they are. The draw is a fresh array, so
   * the last-replacement time no longer shares the time step's array and
   * keeps the value it had.
   */
  function Reset(env: Env, draw: int): (r: Result<ResetResult, EnvError>)
    requires Consistent(env)
    requires StartRange(env.records) > 0 ==> 0 <= draw < StartRange(env.records)
    ensures r.Failure? <==> env.records < 10
    ensures r.Failure? ==> r.error == EmptyStartRange
    ensures r.Success? ==>
      && 0 <= r.value.env.currentTimeStep < env.records / 10
      && r.value.env.currentTimeStep == draw
      && r.value.observation == ReadObservation(env.data, r.value.env.currentTimeStep)
      && Consistent(r.value.env)
    ensures r.Success? ==>
      && r.value.env.data == env.data
      && r.value.env.records == env.records
      && r.value.env.maintenanceCost == env.maintenanceCost
      && r.value.env.replacementEvents == env.replacementEvents
      && r.value.env.timeSinceLastReplacement == env.timeSinceLastReplacement
      && r.value.env.rulThreshold == env.rulThreshold
      && r.value.env.stepIsArray && !r.value.env.lastReplacementShared
  {
    if StartRange(env.records) == 0 then
      Failure(EmptyStartRange)
    else
      var next := env.(currentTimeStep := draw, stepIsArray := true, lastReplacementShared := false);
      Success(ResetResult(next, ReadObservation(next.data, next.currentTimeStep)))
  }

  /** The reward for reaching time step `t` at per-step cost `cost`. */
  function Reward(t: nat, cost: real): (r: real)
    requires cost >= 0.0
    ensures r > 0.0
  {
    (t + 1) as real / (cost + Lambda) / 1000.0
  }

  /**
   * The bookkeeping of one step (PHM_MT_environment.py:150-170), given the
   * RUL read before it: the per-step cost is zeroed, then the first matching
   * branch of end-of-data, RUL threshold, continue and replace applies. An
   * advance of the time step also advances a last-replacement time that
   * shares its array.
   */
  function Transition(env: Env, rul: real, action: int): (Env, StepTag)
  {
    var e := env.(maintenanceCost := 0.0);
    if e.currentTimeStep >= e.records then
      (e, EndOfData)
    else if rul <= e.rulThreshold then
      (e, RulThresholdCrossed)
    else if action == ContinueAction then
      var t := e.currentTimeStep + 1;
      (e.(currentTimeStep := t,
          maintenanceCost := e.maintenanceCost + ContinueCost,
          timeSinceLastReplacement := if e.lastReplacementShared then t else e.timeSinceLastReplacement),
       Continued)
    else if action == ReplaceAction then
      var t := e.currentTimeStep + 1;
      (e.(currentTimeStep := t,
          maintenanceCost := e.maintenanceCost + ReplaceCost,
          replacementEvents := e.replacementEvents + 1,
          timeSinceLastReplacement := t,
          lastReplacementShared := e.stepIsArray), Replaced)
    else
      (e, NoBranch)
  }

  /** The step would end the episode without applying the action. */
  predicate StopsBeforeAction(env: Env, rul: real) {
    env.currentTimeStep >= env.records || rul <= env.rulThreshold
  }

  /**
   * Both table reads of a step stay inside the table: the auxiliary read at
   * the pre-step index and the observation read at the post-branch index.
   */
  predicate StepReadsInRange(env: Env, action: int) {
    env.data.Some? ==>
      && env.currentTimeStep < |env.data.value|
      && Transition(env, ReadAuxiliary(env.data, env.currentTimeStep).rul, action).0.currentTimeStep
         < |env.data.value|
  }

  /** One environment step under `action`. */
  function Step(env: Env, action: int): (r: StepResult)
    requires StepReadsInRange(env, action)
    // the auxiliary values are read at the pre-step index
    ensures r.aux == ReadAuxiliary(env.data, env.currentTimeStep)
    // end of data
    ensures env.currentTimeStep >= env.records ==>
      && r.terminated && r.info == EndOfData
      && r.env == env.(maintenanceCost := 0.0)
    // RUL threshold crossed
    ensures env.currentTimeStep < env.records && r.aux.rul <= env.rulThreshold ==>
      && r.terminated && r.info == RulThresholdCrossed
      && r.env == env.(maintenanceCost := 0.0)
    // continue
    ensures !StopsBeforeAction(env, r.aux.rul) && action == ContinueAction ==>
      && !r.terminated && r.info == Continued
      && r.env.currentTimeStep == env.currentTimeStep + 1
      && r.env.maintenanceCost == 0.1
      && r.env.replacementEvents == env.replacementEvents
      && r.env.timeSinceLastReplacement
         == (if env.lastReplacementShared then r.env.currentTimeStep else env.timeSinceLastReplacement)
      && r.env.lastReplacementShared == env.lastReplacementShared
    // replace
    ensures !StopsBeforeAction(env, r.aux.rul) && action == ReplaceAction ==>
      && !r.terminated && r.info == Replaced
      && r.env.currentTimeStep == env.currentTimeStep + 1
      && r.env.maintenanceCost == 10.0
      && r.env.replacementEvents == env.replacementEvents + 1
      && r.env.timeSinceLastReplacement == r.env.currentTimeStep
      && r.env.lastReplacementShared == env.stepIsArray
    // any other action matches no branch
    ensures !StopsBeforeAction(env, r.aux.rul) && action != ContinueAction && action != ReplaceAction ==>
      && !r.terminated && r.info == NoBranch
      && r.env == env.(maintenanceCost := 0.0)
    ensures r.terminated <==> StopsBeforeAction(env, r.aux.rul)
    ensures r.reward == (r.env.currentTimeStep + 1) as real / (r.env.maintenanceCost + 0.01) / 1000.0
    ensures r.reward > 0.0
    ensures !r.truncated
    ensures r.observation == ReadObservation(env.data, r.env.currentTimeStep)
    ensures r.env.replacementEvents >= env.replacementEvents
    ensures r.env.currentTimeStep >= env.currentTimeStep
    ensures r.env.data == env.data && r.env.records == env.records
    ensures r.env.rulThreshold == env.rulThreshold
    ensures r.env.stepIsArray == env.stepIsArray
    ensures Consistent(env) ==> Consistent(r.env)
    ensures SharingCoherent(env) ==> SharingCoherent(r.env)
  {
    var aux := ReadAuxiliary(env.data, env.currentTimeStep);
    var (next, tag) := Transition(env, aux.rul, action);
    var terminated := tag == EndOfData || tag == RulThresholdCrossed;
    StepResult(next, ReadObservation(next.data, next.currentTimeStep),
               Reward(next.currentTimeStep, next.maintenanceCost),
               terminated, false, tag, aux)
  }

  /**
   * The step as the program runs it: the auxiliary read at the pre-step index
   * comes first, then the branch is committed, then the observation is read
   * at the post-branch index. A read outside the table aborts the step and
   * leaves the environment in the state it had reached by then.
   */
  function TryStep(env: Env, action: int): (r: Result<StepResult, Abort>)
    ensures r.Success? <==> StepReadsInRange(env, action)
    ensures r.Success? ==> r.value == Step(env, action)
    ensures env.data.None? ==> r.Success?
    // with a consistent table, exactly the steps from past the table, and the
    // continue or replace steps from the last row that pass the RUL test, abort
    ensures Consistent(env) && env.data.Some? ==>
      var rows := env.data.value;
      var t := env.currentTimeStep;
      (r.Failure? <==>
        || t >= |rows|
        || (&& t == |rows| - 1
            && rows[t].rul > env.rulThreshold
            && (action == ContinueAction || action == ReplaceAction)))
    ensures r.Failure? ==> r.error.error == IndexOutOfRange
    // the auxiliary read aborts before anything is written
    ensures r.Failure? && env.data.Some? && env.currentTimeStep >= |env.data.value| ==>
      r.error.env == env
    // the observation read aborts after a continue or replace has been committed
    ensures r.Failure? && env.data.Some? && env.currentTimeStep < |env.data.value| ==>
      var e := r.error.env;
      && (action == ContinueAction || action == ReplaceAction)
      && e.currentTimeStep == env.currentTimeStep + 1 == |env.data.value|
      && (action == ContinueAction ==>
            && e.maintenanceCost == 0.1
            && e.replacementEvents == env.replacementEvents
            && e.timeSinceLastReplacement
               == (if env.lastReplacementShared then e.currentTimeStep else env.timeSinceLastReplacement)
            && e.lastReplacementShared == env.lastReplacementShared)
      && (action == ReplaceAction ==>
            && e.maintenanceCost == 10.0
            && e.replacementEvents == env.replacementEvents + 1
            && e.timeSinceLastReplacement == e.currentTimeStep
            && e.lastReplacementShared == env.stepIsArray)
      && e.data == env.data && e.records == env.records
      && e.rulThreshold == env.rulThreshold
      // the time step is still the same object, so its sharing carries over
      && e.stepIsArray == env.stepIsArray
      && (SharingCoherent(env) ==> SharingCoherent(e))
  {
    if !Readable(env.data, env.currentTimeStep) then
      Failure(Abort(IndexOutOfRange, env))
    else
      var aux := ReadAuxiliary(env.data, env.currentTimeStep);
      var (next, _) := Transition(env, aux.rul, action);
      if !Readable(next.data, next.currentTimeStep) then
        Failure(Abort(IndexOutOfRange, next))
      else
        Success(Step(env, action))
  }

}

=== FILE: milling_tool_episodes.dfy ===
/**
 * Properties of the milling-tool environment that relate several calls:
 * the reward of the two actions from the same state, what the table reads
 * rule out, and the bookkeeping of a whole sequence of steps.
 */
module MillingToolEpisodes {
  import opened Results
  import opened MillingToolEnv

  /** The observable record of a run: the final state and the tag and reward of each step. */
  datatype Trace = Trace(final: Env, tags: seq<StepTag>, rewards: seq<real>)

  /** Number of steps in `tags` that carry `tag`. */
  function Count(tags: seq<StepTag>, tag: StepTag): nat
  {
    if |tags| == 0 then 0
    else (if tags[0] == tag then 1 else 0) + Count(tags[1..], tag)
  }

  /**
   * Feeds `actions` to the environment one step at a time, as a caller
   * would; the first out-of-range table read aborts the run, which then
   * reports the state that aborted step left behind.
   */
  function Run(env: Env, actions: seq<int>): (r: Result<Trace, Abort>)
    ensures r.Success? ==> |r.value.tags| == |actions| && |r.value.rewards| == |actions|
    ensures r.Success? ==> forall i | 0 <= i < |r.value.rewards| :: r.value.rewards[i] > 0.0
    ensures r.Success? ==>
      && r.value.final.replacementEvents >= env.replacementEvents
      && r.value.final.currentTimeStep >= env.currentTimeStep
      && r.value.final.data == env.data
      && r.value.final.records == env.records
      && r.value.final.rulThreshold == env.rulThreshold
    ensures r.Success? && Consistent(env) ==> Consistent(r.value.final)
    ensures r.Failure? ==>
      && r.error.error == IndexOutOfRange
      && r.error.env.replacementEvents >= env.replacementEvents
      && r.error.env.currentTimeStep >= env.currentTimeStep
      && r.error.env.data == env.data
    decreases |actions|
  {
    if |actions| == 0 then
      Success(Trace(env, [], []))
    else
      match TryStep(env, actions[0])
      case Failure(e) => Failure(e)
      case Success(s) =>
        match Run(s.env, actions[1..])
        case Failure(e) => Failure(e)
        case Success(rest) =>
          Success(Trace(rest.final, [s.info] + rest.tags, [s.reward] + rest.rewards))
  }

  /**
   * From the same pre-step state, a continue step that is not cut short earns
   * exactly 91 times the reward of a replace step, so strictly more.
   */
  lemma ContinueOutrewardsReplace(env: Env)
    requires StepReadsInRange(env, ContinueAction)
    requires !StopsBeforeAction(env, ReadAuxiliary(env.data, env.currentTimeStep).rul)
    ensures StepReadsInRange(env, ReplaceAction)
    ensures Step(env, ContinueAction).reward == 91.0 * Step(env, ReplaceAction).reward
    ensures Step(env, ContinueAction).reward > Step(env, ReplaceAction).reward
  {
  }

  /**
   * The reward grows with the time step reached and falls with the cost
   * charged.
   */
  lemma RewardMonotone(t: nat, t': nat, cost: real, cost': real)
    requires 0.0 <= cost && 0.0 <= cost'
    ensures t < t' ==> Reward(t, cost) < Reward(t', cost)
    ensures cost < cost' ==> Reward(t, cost) > Reward(t, cost')
  {
  }

  /**
   * With a table attached, a step that reads inside the table never reports
   * end of data: the auxiliary read at the pre-step index already demands
   * that index be below the record count.
   */
  lemma EndOfDataOnlyWithoutTable(env: Env, action: int)
    requires Consistent(env) && StepReadsInRange(env, action)
    ensures Step(env, action).info == EndOfData ==> env.data.None?
  {
  }

  /**
   * A run from a consistent state with a table attached never reports end of
   * data.
   */
  lemma {:induction false} RunNeverEndsOfDataWithTable(env: Env, actions: seq<int>)
    requires Consistent(env) && env.data.Some?
    requires Run(env, actions).Success?
    ensures Count(Run(env, actions).value.tags, EndOfData) == 0
    decreases |actions|
  {
    if |actions| > 0 {
      var s := TryStep(env, actions[0]).value;
      EndOfDataOnlyWithoutTable(env, actions[0]);
      RunNeverEndsOfDataWithTable(s.env, actions[1..]);
      assert Run(env, actions).value.tags == [s.info] + Run(s.env, actions[1..]).value.tags;
      assert ([s.info] + Run(s.env, actions[1..]).value.tags)[1..] == Run(s.env, actions[1..]).value.tags;
    }
  }

  /**
   * Over a run, the replacement count grows by the number of replace steps
   * and the time step by the number of continue and replace steps.
   */
  lemma {:induction false} RunBookkeeping(env: Env, actions: seq<int>)
    requires Run(env, actions).Success?
    ensures
      var tr := Run(env, actions).value;
      && tr.final.replacementEvents == env.replacementEvents + Count(tr.tags, Replaced)
      && tr.final.currentTimeStep
         == env.currentTimeStep + Count(tr.tags, Continued) + Count(tr.tags, Replaced)
    decreases |actions|
  {
    if |actions| > 0 {
      var s := TryStep(env, actions[0]).value;
      var rest := Run(s.env, actions[1..]).value;
      RunBookkeeping(s.env, actions[1..]);
      var tags := Run(env, actions).value.tags;
      assert tags == [s.info] + rest.tags;
      assert tags[1..] == rest.tags;
    }
  }

  /**
   * N replace actions, none of which ends the episode, raise the replacement
   * count and the time step by exactly N, and leave the time since the last
   * replacement equal to the final time step.
   */
  lemma {:induction false} ReplaceRunBookkeeping(env: Env, actions: seq<int>)
    requires |actions| > 0
    requires forall i | 0 <= i < |actions| :: actions[i] == ReplaceAction
    requires Run(env, actions).Success?
    requires forall i | 0 <= i < |actions| :: Run(env, actions).value.tags[i] == Replaced
    ensures
      var tr := Run(env, actions).value;
      && tr.final.replacementEvents == env.replacementEvents + |actions|
      && tr.final.currentTimeStep == env.currentTimeStep + |actions|
      && tr.final.timeSinceLastReplacement == tr.final.currentTimeStep
    decreases |actions|
  {
    var s := TryStep(env, actions[0]).value;
    var tags := Run(env, actions).value.tags;
    assert s.info == tags[0] == Replaced;
    if |actions| > 1 {
      var rest := Run(s.env, actions[1..]).value;
      assert tags == [s.info] + rest.tags;
      forall i | 0 <= i < |actions| - 1
        ensures actions[1..][i] == ReplaceAction && rest.tags[i] == Replaced
      {
        assert rest.tags[i] == tags[i + 1];
      }
      ReplaceRunBookkeeping(s.env, actions[1..]);
    }
  }

  /** Every tag of a sequence is one of the five step tags. */
  lemma {:induction false} TagCountsCoverRun(tags: seq<StepTag>)
    ensures Count(tags, NoBranch) + Count(tags, EndOfData) + Count(tags, RulThresholdCrossed)
            + Count(tags, Continued) + Count(tags, Replaced) == |tags|
    decreases |tags|
  {
    if |tags| > 0 {
      TagCountsCoverRun(tags[1..]);
    }
  }

  /**
   * Over a run, the time step advances once per action except on the steps
   * that end the episode or match no branch.
   */
  lemma RunStallsOnlyOnStoppedSteps(env: Env, actions: seq<int>)
    requires Run(env, actions).Success?
    ensures
      var tr := Run(env, actions).value;
      tr.final.currentTimeStep + Count(tr.tags, NoBranch) + Count(tr.tags, EndOfData)
        + Count(tr.tags, RulThresholdCrossed)
      == env.currentTimeStep + |actions|
  {
    RunBookkeeping(env, actions);
    TagCountsCoverRun(Run(env, actions).value.tags);
  }

  /**
   * A replace followed by a continue: once the time step is a reset's array,
   * the replace makes the last-replacement time that same array, so the
   * continue moves it on to the new time step; before any reset it stays at
   * the replace's time step.
   */
  lemma ReplaceThenContinue(env: Env)
    requires StepReadsInRange(env, ReplaceAction)
    requires Step(env, ReplaceAction).info == Replaced
    requires StepReadsInRange(Step(env, ReplaceAction).env, ContinueAction)
    requires Step(Step(env, ReplaceAction).env, ContinueAction).info == Continued
    ensures
      var e := Step(Step(env, ReplaceAction).env, ContinueAction).env;
      && e.currentTimeStep == env.currentTimeStep + 2
      && e.timeSinceLastReplacement
         == (if env.stepIsArray then env.currentTimeStep + 2 else env.currentTimeStep + 1)
  {
  }

  /**
   * A reset, a replace and a continue: the last-replacement time ends two
   * past the drawn start, level with the time step, although no replace
   * happened at that step.
   */
  lemma ResetReplaceContinue(env: Env, draw: nat)
    requires Consistent(env) && draw < StartRange(env.records)
    requires var e0 := Reset(env, draw).value.env;
      && StepReadsInRange(e0, ReplaceAction)
      && Step(e0, ReplaceAction).info == Replaced
      && StepReadsInRange(Step(e0, ReplaceAction).env, ContinueAction)
      && Step(Step(e0, ReplaceAction).env, ContinueAction).info == Continued
    ensures
      var e := Step(Step(Reset(env, draw).value.env, ReplaceAction).env, ContinueAction).env;
      && e.currentTimeStep == draw + 2
      && e.timeSinceLastReplacement == draw + 2
  {
  }

  /**
   * The observation does not depend on a row's vibration z channel: two tables
   * that differ only there give the same observation.
   */
  lemma ObservationIgnoresVibrationZ(rows: seq<Row>, rows': seq<Row>, t: nat)
    requires |rows| == |rows'| && t < |rows|
    requires forall i | 0 <= i < |rows| :: rows'[i] == rows[i].(vibrationZ := rows'[i].vibrationZ)
    ensures ReadObservation(Some(rows), t) == ReadObservation(Some(rows'), t)
  {
  }
}

=== FILE: results.dfy ===
/** Failure-carrying datatypes shared by both environments. */
module Results {

  /** A value that may be absent, such as a data table not yet attached. */
  datatype Option<+T> = None | Some(value: T)

  /** The outcome of an operation that the environments can abort with an error. */
  datatype Result<+T, +E> = Success(value: T) | Failure(error: E)
}
